=== FILE: README.md ===
# SOK Beauty site scripts: a verified model

This project models the pieces of decision logic in the client-side scripts of
a beauty-salon marketing site, and proves what they promise:

- the **form-submit validator** of `js/main.js`: which `required` fields are
  marked with the `error` class, which message each is left with, and whether
  `handleFormSubmission` is called. The two regular expressions (email and phone) are
  written as explicit string predicates over JavaScript's `\s` class, and
  `String.prototype.trim` is modelled with it;
- the **testimonial slider** index `currentTestimonial := (currentTestimonial + 1) % n`;
- the **sticky navigation bar** rule deciding from `lastScrollTop` and the new
  offset whether the bar slides out, and the update of `lastScrollTop`;
- the **breadcrumb schema** built by `generateBreadcrumbSchema`;
- the **offline proxy** of `sw.js`: cache storage is an ordered list of named
  caches (URL to response), the network is an oracle from request to
  response-or-error, and the worker is a small state machine stepped by
  `install` and `fetch` events. `caches.open`, `cache.addAll` and `caches.match`
  follow sections 5.4 and 5.5 of the W3C Service Workers specification.

Everything is immutable datatypes and pure functions, except two methods
whose loops mirror the source's `forEach` loops (`FormValidation.Submit`,
`Breadcrumbs.GenerateBreadcrumbSchema`) and one method for a single call of the
form's `forEach` callback (`FormValidation.InspectField`).

Files: `wrappers.dfy` (`Option`), `js_text.dfy` (white space, `trim`),
`form_validation.dfy`, `carousel.dfy`, `sticky_nav.dfy`, `breadcrumbs.dfy`,
`cache_storage.dfy` (the Cache API subset), `service_worker.dfy` (`sw.js`).

Modelling decisions:

- A form is a sequence of `Field(kind, value, required, marking)`. `kind` is
  the control's `type` string. `marking` is the `error` class together with the
  text of the error span that follows the field. Non-required fields are kept
  in the sequence only so that the model can state that they are left alone.
- `FormValidation.Passes` is the intended meaning of a passing field: not
  white space only, and for `email`/`tel` well formed. The model proves that
  the source's three overwriting steps compute exactly that. Field values are
  taken as the handler reads them from `field.value`. For such a `value` that is
  non-empty and made only of white space, a required `tel` field keeps "This field is required",
  because `\s` is in the phone class, and a required `email` field ends with
  "Please enter a valid email".
- `caches.match` searches every cache, whatever its name, in creation order
  and answers with the first hit (section 5.5 of the W3C Service Workers
  specification). An entry in a
  cache of an older version can therefore win over the copy just installed
  under `sok-beauty-v1` (`ServiceWorker.OldVersionStoreShadowsNewInstall`).
- `caches.open` is called before `addAll`, so a rejected install still creates
  `sok-beauty-v1`, empty, if it did not exist; if it existed, it keeps its old
  entries. "All or nothing" therefore holds for the entries, not for the
  existence of the cache.
- `addAll` rejects the whole batch when any fetch is a network error, when any
  status is outside 200-299 or is 206, or when a URL occurs twice. Non-GET
  requests never match a cache entry.
- `StickyNav.OnScrollEvent` models `window.pageYOffset || document.documentElement.scrollTop`:
  an offset of 0 is falsy, so the document's own offset is used.

## Model

| member | source | states |
|---|---|---|
| `JsText.TrimStartSpec` | js/main.js:97 | leading trim removes exactly the white-space prefix and leaves a suffix that does not start with white space |
| `JsText.TrimEndSpec` | js/main.js:97 | trailing trim removes exactly the white-space suffix and leaves a prefix that does not end with white space |
| `JsText.TrimEnds` | js/main.js:97 | a non-empty trimmed value neither starts nor ends with white space |
| `JsText.TrimEmptyIffAllWhitespace` | js/main.js:97 | `!field.value.trim()` holds iff the value consists of white space only, the empty value included |
| `FormValidation.EmailRegexIffShape` | js/main.js:107-109 | the email expression accepts iff the value has exactly one `@`, no white space, a non-empty part before the `@`, and a `.` after it with text on both sides |
| `FormValidation.CheckField` | js/main.js:96-124 | inspecting a required field changes only its marking |
| `FormValidation.CheckFieldMeaning` | js/main.js:97-124 | a field ends marked `error` iff it fails (blank after trim, or a malformed email/tel); it keeps a message iff it is marked; the message is the last one written: the email message iff the email check ran and failed, the phone message iff the phone check ran and failed, the "required" message iff the value is blank and no format message overwrote it |
| `FormValidation.InspectField` | js/main.js:96-125 | one callback call: a required field is checked and keeps `isValid` iff it passes; a non-required one is untouched |
| `FormValidation.Submit` | js/main.js:93-130 | `handleFormSubmission` is called iff every required field passes; each required field gets its checked marking; every non-required field is left exactly as it was |
| `FormValidation.OptionalFieldsIrrelevant` | js/main.js:93-96 | two forms that agree on their required fields are both valid or both invalid, whatever their non-required fields hold |
| `FormValidation.BlankEmailEndsWithEmailMessage` | js/main.js:97-113 | a required email field whose value is non-empty and made only of white space ends marked with "Please enter a valid email" |
| `FormValidation.BlankPhoneKeepsRequiredMessage` | js/main.js:97-123 | a required tel field of white space only ends marked with "This field is required" |
| `FormValidation.LeadingSpaceEmailRejected` | js/main.js:107-109 | the expression sees the raw, untrimmed value: `" a@b.c"` is rejected, `"a@b.c"` accepted |
| `Carousel.Start` | js/main.js:207-211 | rotation is scheduled iff there is at least one testimonial, and then starts at index 0 within range |
| `Carousel.Tick` | js/main.js:213 | one tick keeps the index in `[0, n)`, advances it by one, and wraps from the last testimonial to the first |
| `Carousel.TicksStayValid` | js/main.js:208-215 | any number of ticks keeps the index within range |
| `Carousel.TicksAdvance` | js/main.js:211-215 | after `k` ticks the index is `(start + k) mod n` |
| `Carousel.FullCycleReturns` | js/main.js:211-215 | after `n` ticks the slider is back at its starting testimonial |
| `StickyNav.OnScroll` | js/main.js:50-61 | the bar is hidden iff the new offset exceeds both `lastScrollTop` and 100, shown otherwise (always at offsets up to 100); `lastScrollTop` becomes the new offset |
| `StickyNav.OnScrollEvent` | js/main.js:50-61 | a scroll event reads `pageYOffset`, falling back to the document's offset when it is 0, and applies the hide/show rule to that offset; at the very top the bar is shown and `lastScrollTop` is 0 |
| `StickyNav.ReplayDependsOnLastTwo` | js/main.js:48-61 | after any non-empty run of scroll events `lastScrollTop` is the last offset, and the bar is hidden iff the last offset exceeds the one before it (or the initial 0) and 100 |
| `StickyNav.FirstScrollFromLoad` | js/main.js:48-59 | after page load the bar is untouched until the first scroll event, which hides it iff its offset exceeds 100 |
| `StickyNav.NotScrollingDownShows` | js/main.js:53-59 | scrolling up or not moving always brings the bar back |
| `Breadcrumbs.AnchorsOf` | js/main.js:271-278 | recovers from a list of items, one per item in order, the anchor text and href it was built from |
| `Breadcrumbs.GenerateBreadcrumbSchema` | js/main.js:260-278 | no schema without a `.breadcrumbs` element; otherwise one `ListItem` per anchor in document order, numbered 1..k, carrying that anchor's text and href |
| `CacheStorage.NameIndex` | sw.js:11 | finds the first cache of a given name, or reports that none exists |
| `CacheStorage.Open` | sw.js:11 | `caches.open` reuses the cache of that name or appends a new empty one; it only appends, keeps names unique, and returns the cache's position |
| `CacheStorage.Match` | sw.js:18 | `caches.match` hits iff some cache, of any name, holds the request; the answer comes from the first such cache in creation order |
| `CacheStorage.FetchAll` | sw.js:12 | the batch fetch succeeds iff every URL yields an ok, non-206 response, and then maps exactly the batch's URLs to their responses |
| `CacheStorage.AddAll` | sw.js:12 | `addAll` succeeds iff the URLs are distinct and all fetch to storable responses; on success it adds every URL with its response and keeps the other entries; on failure nothing is added |
| `ServiceWorker.Install` | sw.js:9-14 | install succeeds iff every manifest URL fetches to a storable response; the named cache exists afterwards; caches of other names are untouched; on failure no entries change anywhere; on success the named cache holds exactly the manifest URLs plus its older keys, every manifest URL maps to its fetched response, and older entries outside the manifest keep their responses |
| `ServiceWorker.HandleInstall` | sw.js:9-14 | the `install` handler succeeds iff every manifest asset fetches to a storable response, and `sok-beauty-v1` exists afterwards either way |
| `ServiceWorker.ManifestHasNoDuplicates` | sw.js:2-7 | the four manifest URLs are distinct, so `addAll` never rejects for duplicates |
| `ServiceWorker.ManifestInstall` | sw.js:1-14 | the real install succeeds iff all four assets fetch to storable responses, and afterwards `sok-beauty-v1` holds `/`, `/css/styles.css`, `/js/main.js` and `/images/logo.webp`, each mapped to the response its fetch returned |
| `ServiceWorker.HandleFetch` | sw.js:16-21 | no network request is issued iff some cache holds the request, and then the response of the first such cache in creation order is returned; otherwise exactly one network request, the unmodified request, is issued and its result returned as is |
| `ServiceWorker.Step` | sw.js:9-21 | an install event on a fresh worker stores what `HandleInstall` leaves and moves to `Installed` iff every manifest asset is storable, else to `InstallFailed`; on any other worker it changes nothing; install events answer nothing; fetch events never change the worker; an installed worker answers a fetch with `HandleFetch`, and a fetch reaching a worker that is not installed goes straight to the network |
| `ServiceWorker.FetchesNeverWrite` | sw.js:16-21 | any run of fetch events leaves the worker and all cache storage identical |
| `ServiceWorker.ManifestServedFromCache` | sw.js:11-19 | after a successful install a manifest asset is served with zero network requests, whatever the network answers at fetch time, and it is the response stored at install time when no other cache holds that URL |
| `ServiceWorker.InstalledManifestIsServedFromCache` | sw.js:9-21 | the same through the event dispatcher: an install event followed by a fetch event for a manifest asset, with the network free to fail by then |
| `ServiceWorker.FailedInstallNeverServesFromCache` | sw.js:9-14 | a rejected install changes no cache's entries, may only add an empty `sok-beauty-v1`, and leaves every later request to the network |
| `ServiceWorker.UncachedGoesToNetwork` | sw.js:18-19 | a request no cache holds causes exactly one network request of that request, and its result is returned |
| `ServiceWorker.OldVersionStoreShadowsNewInstall` | sw.js:1-21 | an entry for `/` in an older `sok-beauty-v0` cache is served instead of the response installed under `sok-beauty-v1` |
| `ServiceWorker.RenamedInstallKeepsOldCache` | sw.js:1-14 | installing under a new cache name leaves the cache of the old name, and its entries, unchanged |

## Left out

- DOM mutation and event wiring: creating and removing the error span (`showError`, `clearError`) is reduced to the field's `marking`; the mobile menu, smooth scrolling, the skip link, dropdown keys and the Instagram grid have no decision logic.
- `handleFormSubmission` itself (button text, timed success message, `form.reset`, analytics call): the model only decides whether it is called.
- Timers and asynchrony: `setInterval`/`setTimeout` timing, `debounce`, `throttle`, and the promise plumbing of `waitUntil`/`respondWith`. The slider is modelled as its index step only; which testimonial has `display: block` is not modelled.
- Performance monitoring, page-load timing, service-worker registration, the WhatsApp link, lazy image loading and the cookie-consent flag: floating-point timing data, external calls or thin wrappers over browser APIs.
- Field values are taken as the handler reads `field.value`; the browser's input sanitization is not modelled (an `email` input strips newlines and leading and trailing ASCII white space, a `tel` input strips newlines), so on a real page typed spaces in an email field read as empty and only white space outside HTML's ASCII whitespace (TAB, LF, FF, CR, SPACE), such as U+000B or U+00A0, reaches the email check. The browser's own constraint validation is not modelled either: without `novalidate`, a required field whose value is empty, or an email input failing the browser's email check, stops the `submit` event before the handler is called.
- StickyNav.OnScroll: scroll offsets are integers; the browser's offsets are floating-point numbers.
- CacheStorage.AddAll: the `Vary` header, URL schemes other than http(s), URL fragments and query-string matching options are not modelled; responses carry only a status and a body.
- CacheStorage.AddAll: the network oracle is deterministic (one answer per request), and the requests `addAll` sends are not logged; concurrent fetch events are treated one at a time.
- ServiceWorker.Install: cache storage itself never fails: there is no quota limit, the batch write of `addAll` always commits, and `caches.open` and `caches.match` never reject because storage is unavailable. Install therefore fails only on a bad fetch or a duplicate URL, and "install succeeds iff every manifest URL is storable" relies on that; the same holds for `CacheStorage.AddAll`, `ServiceWorker.HandleInstall` and `ServiceWorker.ManifestInstall`.
- ServiceWorker.Step: activation and client control are collapsed into the `Installed` phase; a worker whose install failed is never replaced by a new one.

=== FILE: breadcrumbs.dfy ===
/**
 * `generateBreadcrumbSchema` (js/main.js): turns the anchors inside the
 * page's `.breadcrumbs` element into a schema.org `BreadcrumbList` whose
 * `ListItem`s are numbered from 1 in document order.
 */
module Breadcrumbs {
  import opened Wrappers

  const SCHEMA_CONTEXT := "https://schema.org"
  const LIST_TYPE := "BreadcrumbList"
  const ITEM_TYPE := "ListItem"

  /** One `<a>` inside `.breadcrumbs`: its `textContent` and its `href`. */
  datatype Anchor = Anchor(text: string, href: string)

  /** `{"@type": "ListItem", "position": …, "name": …, "item": …}`. */
  datatype ListItem = ListItem(typ: string, position: int, name: string, item: string)

  /** `{"@context": …, "@type": "BreadcrumbList", "itemListElement": […]}`. */
  datatype Schema = Schema(context: string, typ: string, itemListElement: seq<ListItem>)

  /** The anchors a list of items was built from. */
  function AnchorsOf(items: seq<ListItem>): (anchors: seq<Anchor>)
    ensures |anchors| == |items|
    ensures forall i :: 0 <= i < |items| ==> anchors[i] == Anchor(items[i].name, items[i].item)
  {
    if items == [] then [] else [Anchor(items[0].name, items[0].item)] + AnchorsOf(items[1..])
  }

  /** Positions run 1, 2, …, k in list order, and every item is a `ListItem`. */
  predicate NumberedFromOne(items: seq<ListItem>) {
    forall i :: 0 <= i < |items| ==> items[i].position == i + 1 && items[i].typ == ITEM_TYPE
  }

  /**
   * The function body. `breadcrumbs` is `None` when the page has no
   * `.breadcrumbs` element, and otherwise holds its anchors in document order;
   * the result is the schema placed in the new `<script>`, if any.
   */
  method GenerateBreadcrumbSchema(breadcrumbs: Option<seq<Anchor>>) returns (schema: Option<Schema>)
    ensures schema.None? <==> breadcrumbs.None?
    ensures schema.Some? ==> schema.value.context == SCHEMA_CONTEXT && schema.value.typ == LIST_TYPE
    ensures schema.Some? ==> NumberedFromOne(schema.value.itemListElement)
    ensures schema.Some? ==> AnchorsOf(schema.value.itemListElement) == breadcrumbs.value
  {
    if breadcrumbs.None? {
      return None;
    }
    var items := breadcrumbs.value;
    var list: seq<ListItem> := [];
    var index := 0;
    while index < |items|
      invariant 0 <= index <= |items|
      invariant |list| == index
      invariant NumberedFromOne(list)
      invariant AnchorsOf(list) == items[..index]
    {
      var item := items[index];
      list := list + [ListItem(ITEM_TYPE, index + 1, item.text, item.href)];
      index := index + 1;
    }
    assert items[..index] == items;
    schema := Some(Schema(SCHEMA_CONTEXT, LIST_TYPE, list));
  }
}

=== FILE: cache_storage.dfy ===
/**
 * The subset of the Service Workers `Cache` and `CacheStorage` interfaces the
 * offline proxy uses (W3C Service Workers, section 5.4 "Cache" and section 5.5
 * "CacheStorage"): `caches.open`, `cache.addAll` and `caches.match`, over an
 * in-memory store and an abstract network.
 */
module CacheStorage {
  import opened Wrappers

  /**
   * An absolute URL, as a fetch request carries it. The manifest's strings
   * (`"/"`, `"/css/styles.css"`, ...) stand for the absolute URLs they resolve
   * to against the worker's location.
   */
  type Url = string

  const GET := "GET"

  /** A request descriptor: method (`verb`) and URL. */
  datatype Request = Request(verb: string, url: Url)

  function Get(url: Url): Request {
    Request(GET, url)
  }

  datatype Response = Response(status: int, body: string)

  /** What the network yields for a request: a response of any status, or a network error. */
  datatype NetResult = Ok(response: Response) | NetworkError

  /** The network, as an oracle that answers every request. */
  type Network = Request -> NetResult

  /** One named cache: request URL to stored response. */
  datatype Cache = Cache(name: string, entries: map<Url, Response>)

  /** The name-to-cache map of `CacheStorage`, in the order the caches were created. */
  type Storage = seq<Cache>

  predicate NamesUnique(storage: Storage) {
    forall i, j :: 0 <= i < j < |storage| ==> storage[i].name != storage[j].name
  }

  /** Position of the cache called `name`, or `|storage|` when there is none. */
  function NameIndex(storage: Storage, name: string): (k: nat)
    ensures k <= |storage|
    ensures k < |storage| ==> storage[k].name == name
    ensures forall i :: 0 <= i < k ==> storage[i].name != name
  {
    if storage == [] then 0
    else if storage[0].name == name then 0
    else 1 + NameIndex(storage[1..], name)
  }

  /** The first cache called `name` is the one `NameIndex` finds. */
  lemma NameIndexIsFirst(storage: Storage, name: string, k: nat)
    requires k < |storage| && storage[k].name == name
    requires forall i :: 0 <= i < k ==> storage[i].name != name
    ensures NameIndex(storage, name) == k
  {
  }

  predicate HasCache(storage: Storage, name: string) {
    NameIndex(storage, name) < |storage|
  }

  /** The result of `caches.open(name)`: the storage afterwards and the position of the opened cache. */
  datatype Opened = Opened(storage: Storage, index: nat)

  /**
   * `caches.open(name)`: reuses the cache of that name, or creates an empty
   * one after all existing caches.
   */
  function Open(storage: Storage, name: string): (r: Opened)
    ensures r.index < |r.storage| && r.storage[r.index].name == name
    ensures r.index == NameIndex(r.storage, name)
    ensures storage <= r.storage && |r.storage| <= |storage| + 1
    ensures HasCache(storage, name) ==> r.storage == storage
    ensures !HasCache(storage, name) ==> r.storage[r.index].entries == map[]
    ensures NamesUnique(storage) ==> NamesUnique(r.storage)
  {
    var k := NameIndex(storage, name);
    if k < |storage| then Opened(storage, k)
    else
      var grown := storage + [Cache(name, map[])];
      assert forall i :: 0 <= i < |storage| ==> grown[i] == storage[i];
      Opened(grown, k)
  }

  /**
   * `cache.match(request)` with default options: a request that is not a GET
   * matches nothing; otherwise the entry stored under its URL, if any.
   */
  function CacheMatch(cache: Cache, req: Request): Option<Response>
  {
    if req.verb == GET && req.url in cache.entries then Some(cache.entries[req.url]) else None
  }

  /**
   * `caches.match(request)`: consults the caches in creation order and answers
   * with the first hit, whatever the cache is called.
   */
  function Match(storage: Storage, req: Request): (r: Option<Response>)
    ensures r.Some? <==> exists i :: 0 <= i < |storage| && CacheMatch(storage[i], req).Some?
    ensures r.Some? ==> exists i :: 0 <= i < |storage| && CacheMatch(storage[i], req) == r
                          && forall j :: 0 <= j < i ==> CacheMatch(storage[j], req).None?
  {
    if storage == [] then None
    else if CacheMatch(storage[0], req).Some? then CacheMatch(storage[0], req)
    else
      var r := Match(storage[1..], req);
      assert forall i :: 1 <= i < |storage| ==> storage[i] == storage[1..][i - 1];
      r
  }

  /** `addAll` stores a response only when its status is ok (200-299) and it is not a partial (206) one. */
  predicate Storable(res: NetResult) {
    res.Ok? && 200 <= res.response.status <= 299 && res.response.status != 206
  }

  /** Every URL fetches to a storable response. */
  predicate AllStorable(urls: seq<Url>, net: Network) {
    forall i :: 0 <= i < |urls| ==> Storable(net(Get(urls[i])))
  }

  predicate NoDuplicates(urls: seq<Url>) {
    forall i, j :: 0 <= i < j < |urls| ==> urls[i] != urls[j]
  }

  /** Fetches every URL; any unusable answer makes the whole batch fail. */
  function FetchAll(urls: seq<Url>, net: Network): (r: Option<map<Url, Response>>)
    ensures r.Some? <==> AllStorable(urls, net)
    ensures r.Some? ==> forall u :: u in r.value <==> u in urls
    ensures r.Some? ==> forall u :: u in urls ==> net(Get(u)).Ok? && r.value[u] == net(Get(u)).response
  {
    if urls == [] then Some(map[])
    else
      var head := net(Get(urls[0]));
      var rest := FetchAll(urls[1..], net);
      assert forall i :: 1 <= i < |urls| ==> urls[i] == urls[1..][i - 1];
      assert forall u :: u in urls ==> u == urls[0] || u in urls[1..];
      if Storable(head) && rest.Some? then Some(rest.value[urls[0] := head.response]) else None
  }

  /**
   * `cache.addAll(urls)`: fetches every URL as a GET; if any fetch fails or
   * gives an unusable response, or the batch names one URL twice, it rejects
   * and the cache is left as it was; otherwise every response is put at once.
   */
  function AddAll(cache: Cache, urls: seq<Url>, net: Network): (r: Option<Cache>)
    ensures r.Some? <==> NoDuplicates(urls) && AllStorable(urls, net)
    ensures r.Some? ==> r.value.name == cache.name
    ensures r.Some? ==> forall u :: u in r.value.entries <==> u in cache.entries || u in urls
    ensures r.Some? ==> forall u :: u in urls ==> r.value.entries[u] == net(Get(u)).response
    ensures r.Some? ==> forall u :: u in cache.entries && u !in urls ==> r.value.entries[u] == cache.entries[u]
  {
    if !NoDuplicates(urls) then None
    else
      match FetchAll(urls, net)
      case None => None
      case Some(fetched) => Some(Cache(cache.name, cache.entries + fetched))
  }
}

=== FILE: carousel.dfy ===
/**
 * The testimonial slider (js/main.js): a timer that, when there is at least
 * one `.testimonial`, hides the current one and shows the next, cyclically.
 */
module Carousel {
  import opened Wrappers

  /** The slider's state: how many testimonials there are and which one is current. */
  datatype Rotation = Rotation(count: nat, current: nat)

  /** `currentTestimonial` indexes an existing testimonial. */
  predicate Valid(r: Rotation) {
    r.current < r.count
  }

  /** The page sets `currentTestimonial = 0` and schedules the timer only when there is a testimonial. */
  function Start(count: nat): (r: Option<Rotation>)
    ensures r.Some? <==> count > 0
    ensures r.Some? ==> Valid(r.value) && r.value.count == count && r.value.current == 0
  {
    if count > 0 then Some(Rotation(count, 0)) else None
  }

  /** One timer tick: `currentTestimonial = (currentTestimonial + 1) % testimonials.length`. */
  function Tick(r: Rotation): (r': Rotation)
    requires r.count > 0
    ensures Valid(r') && r'.count == r.count
    ensures Valid(r) ==> (r.current + 1 < r.count ==> r'.current == r.current + 1)
    ensures Valid(r) ==> (r.current + 1 == r.count ==> r'.current == 0)
  {
    Rotation(r.count, (r.current + 1) % r.count)
  }

  /** `k` ticks in a row. */
  function Ticks(r: Rotation, k: nat): Rotation
    requires r.count > 0
  {
    if k == 0 then r else Tick(Ticks(r, k - 1))
  }

  /** Any number of ticks from a valid state keeps the index in range and never changes the count. */
  lemma {:induction false} TicksStayValid(r: Rotation, k: nat)
    requires Valid(r)
    ensures Valid(Ticks(r, k)) && Ticks(r, k).count == r.count
  {
    if k > 0 {
      TicksStayValid(r, k - 1);
    }
  }

  /** After `k` ticks the index has moved `k` places forward, modulo the count. */
  lemma {:induction false} TicksAdvance(r: Rotation, k: nat)
    requires Valid(r)
    ensures Ticks(r, k).current == (r.current + k) % r.count
  {
    if k == 0 {
      ModUnique(r.current, r.count, 0, r.current);
    } else {
      TicksAdvance(r, k - 1);
      TicksStayValid(r, k - 1);
      ModSuccessor(r.current + k - 1, r.count);
    }
  }

  /** Euclidean division has one remainder: if `a == q * n + m` with `0 <= m < n` then `a % n == m`. */
  lemma ModUnique(a: int, n: int, q: int, m: int)
    requires n > 0 && 0 <= m < n && a == q * n + m
    ensures a % n == m
  {
    var q', m' := a / n, a % n;
    assert a == q' * n + m';
    assert (q - q') * n == m' - m;
    if q > q' {
      MulAtLeast(q - q', n);
    } else if q < q' {
      MulAtLeast(q' - q, n);
    }
  }

  lemma MulAtLeast(d: int, n: nat)
    requires d >= 1
    ensures d * n >= n
  {
  }

  /** `((x % n) + 1) % n == (x + 1) % n`. */
  lemma ModSuccessor(x: nat, n: nat)
    requires n > 0
    ensures ((x % n) + 1) % n == (x + 1) % n
  {
    var q, m := x / n, x % n;
    assert x == q * n + m;
    if m + 1 < n {
      ModUnique(m + 1, n, 0, m + 1);
      ModUnique(x + 1, n, q, m + 1);
    } else {
      ModUnique(m + 1, n, 1, 0);
      ModUnique(x + 1, n, q + 1, 0);
    }
  }

  /** After as many ticks as there are testimonials, the slider shows the one it started from. */
  lemma FullCycleReturns(r: Rotation)
    requires Valid(r)
    ensures Ticks(r, r.count) == r
  {
    TicksAdvance(r, r.count);
    TicksStayValid(r, r.count);
    ModUnique(r.current + r.count, r.count, 1, r.current);
  }
}

=== FILE: form_validation.dfy ===
/**
 * The submit handler of every form on the page (js/main.js): it inspects the
 * fields marked `required`, marks each one with the `error` class and an error
 * message or clears them, and calls `handleFormSubmission` only when every
 * inspected field passed.
 */
module FormValidation {
  import opened Wrappers
  import opened JsText

  const EMAIL_TYPE := "email"
  const TEL_TYPE := "tel"

  const REQUIRED_MESSAGE := "This field is required"
  const EMAIL_MESSAGE := "Please enter a valid email"
  const PHONE_MESSAGE := "Please enter a valid phone number"

  /** What the page shows for one field: its `error` class and the error-message span that follows it. */
  datatype Marking = Marking(error: bool, message: Option<string>)

  const Unmarked := Marking(false, None)

  /** A form control: its `type`, its current raw `value`, whether it carries `required`, and its marking. */
  datatype Field = Field(kind: string, value: string, required: bool, marking: Marking)

  // ---------------------------------------------------------------------------
  // The two regular expressions, written as string predicates
  // ---------------------------------------------------------------------------

  /** One character of the class `[^\s@]`. */
  predicate EmailAtom(c: char) {
    !IsWhitespace(c) && c != '@'
  }

  /** `[^\s@]+` matching the whole of `s`. */
  predicate AtomRun(s: string) {
    |s| > 0 && forall i :: 0 <= i < |s| ==> EmailAtom(s[i])
  }

  /**
   * `/^[^\s@]+@[^\s@]+\.[^\s@]+$/.test(s)`: `s` splits as a run, an `@` at
   * index `a`, a run, a `.` at index `d`, and a run.
   */
  predicate EmailRegex(s: string) {
    exists a, d :: 0 < a && a + 1 < d && d + 1 < |s| && s[a] == '@' && s[d] == '.'
      && AtomRun(s[..a]) && AtomRun(s[a + 1..d]) && AtomRun(s[d + 1..])
  }

  /** One character of the class `[\d\s\+\-\(\)]`; `\d` is ASCII `0`-`9` only. */
  predicate PhoneChar(c: char) {
    ('0' <= c <= '9') || IsWhitespace(c) || c == '+' || c == '-' || c == '(' || c == ')'
  }

  /** `/^[\d\s\+\-\(\)]+$/.test(s)`. */
  predicate PhoneRegex(s: string) {
    |s| > 0 && forall i :: 0 <= i < |s| ==> PhoneChar(s[i])
  }

  /**
   * The shape the email expression accepts, stated without the regular
   * expression: exactly one `@`, no white space at all, something before the
   * `@`, and a `.` after it with something on both of its sides.
   */
  predicate EmailShape(s: string) {
    && (forall i :: 0 <= i < |s| ==> !IsWhitespace(s[i]))
    && exists a :: 0 < a < |s| && s[a] == '@'
         && (forall i :: 0 <= i < |s| && i != a ==> s[i] != '@')
         && (exists d :: a + 1 < d < |s| - 1 && s[d] == '.')
  }

  lemma EmailRegexIffShape(s: string)
    ensures EmailRegex(s) <==> EmailShape(s)
  {
  }

  // ---------------------------------------------------------------------------
  // One field
  // ---------------------------------------------------------------------------

  /** The email check runs for `type === 'email'` with a non-empty raw value and fails. */
  predicate EmailCheckFails(f: Field) {
    f.kind == EMAIL_TYPE && f.value != [] && !EmailRegex(f.value)
  }

  /** The phone check runs for `type === 'tel'` with a non-empty raw value and fails. */
  predicate PhoneCheckFails(f: Field) {
    f.kind == TEL_TYPE && f.value != [] && !PhoneRegex(f.value)
  }

  /**
   * The intended meaning of a passing field: it holds more than white space,
   * and an email or telephone field is well formed.
   */
  predicate Passes(f: Field) {
    && !AllWhitespace(f.value)
    && (f.kind == EMAIL_TYPE ==> EmailShape(f.value))
    && (f.kind == TEL_TYPE ==> PhoneRegex(f.value))
  }

  /** A string of white space alone is never an email address. */
  lemma BlankIsNoEmail(s: string)
    ensures AllWhitespace(s) ==> !EmailRegex(s)
  {
  }

  /**
   * The body of the `forEach` callback for one required field: the emptiness
   * check sets or clears the marking, then the email and phone checks may
   * overwrite it, so the message left is the last one written.
   */
  function CheckField(f: Field): (g: Field)
    ensures g.kind == f.kind && g.value == f.value && g.required == f.required
  {
    var afterRequired := if Trim(f.value) == [] then Marking(true, Some(REQUIRED_MESSAGE)) else Unmarked;
    var afterEmail := if EmailCheckFails(f) then Marking(true, Some(EMAIL_MESSAGE)) else afterRequired;
    var afterPhone := if PhoneCheckFails(f) then Marking(true, Some(PHONE_MESSAGE)) else afterEmail;
    f.(marking := afterPhone)
  }

  /**
   * What the three overwriting steps leave behind: the field is marked iff it
   * does not pass, it keeps a message iff it is marked, and which message it
   * keeps depends on which check failed last.
   */
  lemma CheckFieldMeaning(f: Field)
    ensures CheckField(f).marking.error <==> !Passes(f)
    ensures CheckField(f).marking.message.None? <==> Passes(f)
    ensures (CheckField(f).marking.message == Some(REQUIRED_MESSAGE))
      <==> AllWhitespace(f.value) && (f.value == [] || f.kind != EMAIL_TYPE)
    ensures CheckField(f).marking.message == Some(EMAIL_MESSAGE) <==> EmailCheckFails(f)
    ensures CheckField(f).marking.message == Some(PHONE_MESSAGE) <==> PhoneCheckFails(f)
  {
    TrimEmptyIffAllWhitespace(f.value);
    EmailRegexIffShape(f.value);
    BlankIsNoEmail(f.value);
  }

  // ---------------------------------------------------------------------------
  // The whole form
  // ---------------------------------------------------------------------------

  /** Every field carrying `required` passes; the others are never looked at. */
  predicate FormValid(form: seq<Field>) {
    forall i :: 0 <= i < |form| && form[i].required ==> Passes(form[i])
  }

  lemma FormValidSnoc(form: seq<Field>, f: Field)
    ensures FormValid(form + [f]) <==> FormValid(form) && (f.required ==> Passes(f))
  {
    assert forall i :: 0 <= i < |form| ==> (form + [f])[i] == form[i];
    assert (form + [f])[|form|] == f;
  }

  /** One call of the `forEach` callback: the field's new state and whether it keeps `isValid` true. */
  method InspectField(field: Field) returns (next: Field, passed: bool)
    ensures field.required ==> next == CheckField(field)
    ensures field.required ==> (next.marking.error <==> !Passes(field))
    ensures !field.required ==> next == field
    ensures passed <==> (field.required ==> Passes(field))
  {
    next := field;
    passed := true;
    if field.required {
      next := CheckField(field);
      CheckFieldMeaning(field);
      passed := !next.marking.error;
    }
  }

  /**
   * The submit handler: `querySelectorAll('[required]').forEach(...)` with the
   * flag `isValid`. `submits` is true iff `handleFormSubmission` is called.
   */
  method Submit(form: seq<Field>) returns (marked: seq<Field>, submits: bool)
    ensures |marked| == |form|
    ensures submits <==> FormValid(form)
    ensures forall i :: 0 <= i < |form| && form[i].required ==> marked[i] == CheckField(form[i])
    ensures forall i :: 0 <= i < |form| && !form[i].required ==> marked[i] == form[i]
    ensures forall i :: 0 <= i < |form| && form[i].required ==> (marked[i].marking.error <==> !Passes(form[i]))
  {
    marked := [];
    var isValid := true;
    var k := 0;
    while k < |form|
      invariant 0 <= k <= |form|
      invariant |marked| == k
      invariant isValid <==> FormValid(form[..k])
      invariant forall i :: 0 <= i < k && form[i].required ==> marked[i] == CheckField(form[i])
      invariant forall i :: 0 <= i < k && form[i].required ==> (marked[i].marking.error <==> !Passes(form[i]))
      invariant forall i :: 0 <= i < k && !form[i].required ==> marked[i] == form[i]
    {
      var field := form[k];
      FormValidSnoc(form[..k], field);
      var next, passed := InspectField(field);
      isValid := isValid && passed;
      marked := marked + [next];
      assert form[..k + 1] == form[..k] + [field];
      k := k + 1;
    }
    assert form[..k] == form;
    submits := isValid;
  }

  // ---------------------------------------------------------------------------
  // Consequences worth stating on their own
  // ---------------------------------------------------------------------------

  /** A non-required field, however malformed, has no say in whether the form submits. */
  lemma OptionalFieldsIrrelevant(form: seq<Field>, other: seq<Field>)
    requires |form| == |other|
    requires forall i :: 0 <= i < |form| ==> form[i].required == other[i].required
    requires forall i :: 0 <= i < |form| && form[i].required ==> form[i] == other[i]
    ensures FormValid(form) <==> FormValid(other)
  {
  }

  /**
   * A required email field whose `value`, as the handler reads it, is only
   * white space is first marked as empty, then fails the email check, so it
   * is left with the email message.
   */
  lemma BlankEmailEndsWithEmailMessage(value: string, marking: Marking)
    requires value != [] && AllWhitespace(value)
    ensures CheckField(Field(EMAIL_TYPE, value, true, marking)).marking == Marking(true, Some(EMAIL_MESSAGE))
  {
  }

  /**
   * A required telephone field whose `value`, as the handler reads it, is
   * only white space passes the phone check (white space is in its class), so
   * the "required" message stays.
   */
  lemma BlankPhoneKeepsRequiredMessage(value: string, marking: Marking)
    requires AllWhitespace(value)
    ensures CheckField(Field(TEL_TYPE, value, true, marking)).marking == Marking(true, Some(REQUIRED_MESSAGE))
  {
    CheckFieldMeaning(Field(TEL_TYPE, value, true, marking));
  }

  /**
   * The email expression sees `value` untrimmed: a `value` of `" a@b.c"`
   * reaching the handler is rejected although `trim` would remove the space.
   */
  lemma LeadingSpaceEmailRejected()
    ensures !EmailRegex(" a@b.c")
    ensures EmailRegex("a@b.c")
  {
    var s := " a@b.c";
    EmailRegexIffShape(s);
    assert IsWhitespace(s[0]);
    var t := "a@b.c";
    assert t[1] == '@' && t[3] == '.';
    assert AtomRun(t[..1]) && AtomRun(t[2..3]) && AtomRun(t[4..]);
  }
}

=== FILE: js_text.dfy ===
/**
 * The two pieces of JavaScript string semantics the page script depends on:
 * the white-space class `\s` of regular expressions and `String.prototype.trim`.
 * Both use the same set of code points, the WhiteSpace and LineTerminator
 * productions of ECMA-262 (sections 12.2 and 12.3).
 */
module JsText {

  /** True iff `c` is matched by `\s` (and is stripped by `trim`). */
  predicate IsWhitespace(c: char) {
    var n := c as int;
    || n == 0x09 || n == 0x0A || n == 0x0B || n == 0x0C || n == 0x0D || n == 0x20
    || n == 0xA0 || n == 0x1680 || (0x2000 <= n <= 0x200A)
    || n == 0x2028 || n == 0x2029 || n == 0x202F || n == 0x205F || n == 0x3000 || n == 0xFEFF
  }

  predicate AllWhitespace(s: string) {
    forall i :: 0 <= i < |s| ==> IsWhitespace(s[i])
  }

  /** Drops the leading white space. */
  function TrimStart(s: string): string {
    if |s| > 0 && IsWhitespace(s[0]) then TrimStart(s[1..]) else s
  }

  /** Drops the trailing white space. */
  function TrimEnd(s: string): string {
    if |s| > 0 && IsWhitespace(s[|s| - 1]) then TrimEnd(s[..|s| - 1]) else s
  }

  /** `String.prototype.trim`: white space is stripped from the start, then from the end. */
  function Trim(s: string): string {
    TrimEnd(TrimStart(s))
  }

  /** `TrimStart` keeps the longest suffix that does not start with white space, and drops only white space. */
  lemma {:induction false} TrimStartSpec(s: string)
    ensures |TrimStart(s)| <= |s| && TrimStart(s) == s[|s| - |TrimStart(s)|..]
    ensures AllWhitespace(s[..|s| - |TrimStart(s)|])
    ensures |TrimStart(s)| > 0 ==> !IsWhitespace(TrimStart(s)[0])
  {
    if |s| > 0 && IsWhitespace(s[0]) {
      TrimStartSpec(s[1..]);
      var k := |s| - |TrimStart(s)|;
      forall i | 0 <= i < k
        ensures IsWhitespace(s[..k][i])
      {
        if i > 0 {
          assert s[..k][i] == s[1..][..k - 1][i - 1];
        }
      }
    }
  }

  /** `TrimEnd` keeps the longest prefix that does not end with white space, and drops only white space. */
  lemma {:induction false} TrimEndSpec(s: string)
    ensures |TrimEnd(s)| <= |s| && TrimEnd(s) == s[..|TrimEnd(s)|]
    ensures AllWhitespace(s[|TrimEnd(s)|..])
    ensures |TrimEnd(s)| > 0 ==> !IsWhitespace(TrimEnd(s)[|TrimEnd(s)| - 1])
  {
    if |s| > 0 && IsWhitespace(s[|s| - 1]) {
      var p := s[..|s| - 1];
      TrimEndSpec(p);
      var k := |TrimEnd(s)|;
      forall i | k <= i < |s|
        ensures IsWhitespace(s[i])
      {
        if i < |s| - 1 {
          assert s[i] == p[k..][i - k];
        }
      }
      assert forall i :: 0 <= i < |s| - k ==> s[k..][i] == s[k + i];
    }
  }

  /** A trimmed string neither starts nor ends with white space. */
  lemma TrimEnds(s: string)
    ensures |Trim(s)| > 0 ==> !IsWhitespace(Trim(s)[0]) && !IsWhitespace(Trim(s)[|Trim(s)| - 1])
  {
    var t := TrimStart(s);
    TrimStartSpec(s);
    TrimEndSpec(t);
    if |Trim(s)| > 0 {
      assert Trim(s)[0] == t[0];
    }
  }

  /** `!value.trim()` holds exactly for the strings made only of white space (the empty one included). */
  lemma TrimEmptyIffAllWhitespace(s: string)
    ensures Trim(s) == [] <==> AllWhitespace(s)
  {
    var t := TrimStart(s);
    TrimStartSpec(s);
    TrimEndSpec(t);
    if Trim(s) == [] {
      assert AllWhitespace(t[..]);
      assert |t| == 0;
      assert s[..|s| - |t|] == s;
    } else {
      assert |t| > 0 && t[0] == s[|s| - |t|];
    }
  }
}

=== FILE: service_worker.dfy ===
/**
 * The offline proxy (sw.js): on `install` it opens the cache `sok-beauty-v1`
 * and adds a fixed manifest of four assets to it in one batch; on `fetch` it
 * answers from any cache when it can and from the network otherwise, and it
 * never writes.
 */
module ServiceWorker {
  import opened Wrappers
  import opened CacheStorage

  const CACHE_NAME := "sok-beauty-v1"

  const URLS_TO_CACHE: seq<Url> := ["/", "/css/styles.css", "/js/main.js", "/images/logo.webp"]

  // ---------------------------------------------------------------------------
  // install
  // ---------------------------------------------------------------------------

  /** Whether the promise given to `waitUntil` resolved, and the cache storage afterwards. */
  datatype InstallOutcome = InstallOutcome(succeeded: bool, storage: Storage)

  /**
   * `caches.open(name).then(cache => cache.addAll(manifest))`. The cache is
   * opened (and so created) before `addAll` is called, so it exists afterwards even
   * when the batch is rejected; the entries change only on success.
   */
  function Install(storage: Storage, name: string, manifest: seq<Url>, net: Network): (r: InstallOutcome)
    ensures r.succeeded <==> NoDuplicates(manifest) && AllStorable(manifest, net)
    ensures HasCache(r.storage, name)
    ensures |storage| <= |r.storage| <= |storage| + 1
    ensures forall i :: 0 <= i < |storage| && storage[i].name != name ==> r.storage[i] == storage[i]
    ensures forall i :: |storage| <= i < |r.storage| ==> r.storage[i].name == name
    ensures NamesUnique(storage) ==> NamesUnique(r.storage)
    ensures !r.succeeded ==> forall i :: 0 <= i < |r.storage| ==>
      r.storage[i].entries == if i < |storage| then storage[i].entries else map[]
    ensures r.succeeded ==>
      var entries := r.storage[NameIndex(r.storage, name)].entries;
      var before := if HasCache(storage, name) then storage[NameIndex(storage, name)].entries else map[];
      && (forall u :: u in entries <==> u in manifest || u in before)
      && (forall u :: u in manifest ==> entries[u] == net(Get(u)).response)
      && (forall u :: u in before && u !in manifest ==> entries[u] == before[u])
  {
    var cacheOpened := Open(storage, name);
    match AddAll(cacheOpened.storage[cacheOpened.index], manifest, net)
    case None => InstallOutcome(false, cacheOpened.storage)
    case Some(filled) =>
      var after := cacheOpened.storage[cacheOpened.index := filled];
      assert NameIndex(after, name) == cacheOpened.index by {
        NameIndexAfterUpdate(cacheOpened.storage, cacheOpened.index, filled, name);
      }
      InstallOutcome(true, after)
  }

  /** Replacing a cache by one of the same name does not move that name. */
  lemma NameIndexAfterUpdate(storage: Storage, k: nat, c: Cache, name: string)
    requires k < |storage| && storage[k].name == name && c.name == name
    requires NameIndex(storage, name) == k
    ensures NameIndex(storage[k := c], name) == k
  {
    NameIndexIsFirst(storage[k := c], name, k);
  }

  /**
   * The `install` handler of sw.js: the manifest has no repeated URL, so it
   * succeeds exactly when every asset fetches to a storable response, and the
   * cache `sok-beauty-v1` exists afterwards either way.
   */
  function HandleInstall(storage: Storage, net: Network): (r: InstallOutcome)
    ensures r.succeeded <==> AllStorable(URLS_TO_CACHE, net)
    ensures HasCache(r.storage, CACHE_NAME)
  {
    ManifestHasNoDuplicates();
    Install(storage, CACHE_NAME, URLS_TO_CACHE, net)
  }

  lemma ManifestHasNoDuplicates()
    ensures NoDuplicates(URLS_TO_CACHE)
  {
  }

  /**
   * A successful install leaves `sok-beauty-v1` holding each of the four
   * manifest assets as fetched; it succeeds exactly when all four fetch to an
   * ok, non-partial response.
   */
  lemma ManifestInstall(storage: Storage, net: Network)
    ensures var r := HandleInstall(storage, net);
      && (r.succeeded <==>
            && Storable(net(Get("/"))) && Storable(net(Get("/css/styles.css")))
            && Storable(net(Get("/js/main.js"))) && Storable(net(Get("/images/logo.webp"))))
      && (r.succeeded ==>
            var entries := r.storage[NameIndex(r.storage, CACHE_NAME)].entries;
            && "/" in entries && "/css/styles.css" in entries
            && "/js/main.js" in entries && "/images/logo.webp" in entries
            && forall u :: u in URLS_TO_CACHE ==> entries[u] == net(Get(u)).response)
  {
    ManifestHasNoDuplicates();
    var m := URLS_TO_CACHE;
    assert forall u :: u in m <==> u == m[0] || u == m[1] || u == m[2] || u == m[3];
  }

  // ---------------------------------------------------------------------------
  // fetch
  // ---------------------------------------------------------------------------

  /** The response handed to `respondWith`, and the requests sent to the network meanwhile. */
  datatype FetchOutcome = FetchOutcome(result: NetResult, network: seq<Request>)

  /** `caches.match(request).then(response => response || fetch(request))`. */
  function HandleFetch(storage: Storage, req: Request, net: Network): (o: FetchOutcome)
    ensures o.network == [] <==> exists i :: 0 <= i < |storage| && CacheMatch(storage[i], req).Some?
    ensures o.network != [] ==> o.network == [req] && o.result == net(req)
    ensures o.network == [] ==>
      o.result.Ok? && (exists i :: 0 <= i < |storage| && CacheMatch(storage[i], req) == Some(o.result.response)
                         && forall j :: 0 <= j < i ==> CacheMatch(storage[j], req).None?)
  {
    match Match(storage, req)
    case Some(cached) => FetchOutcome(Ok(cached), [])
    case None => FetchOutcome(net(req), [req])
  }

  // ---------------------------------------------------------------------------
  // The worker as a state machine
  // ---------------------------------------------------------------------------

  datatype Phase = Uninstalled | Installed | InstallFailed

  datatype Worker = Worker(phase: Phase, storage: Storage)

  /** The two lifecycle signals the worker reacts to. */
  datatype Event = InstallEvent | FetchEvent(request: Request)

  /** The worker afterwards and, for a fetch, how the request was served. */
  datatype StepOutcome = StepOutcome(worker: Worker, served: Option<FetchOutcome>)

  /**
   * Dispatches one event. The host invokes the install handler once, on a fresh
   * worker; a request made while the worker is not installed never reaches it
   * and goes to the network directly.
   */
  function Step(w: Worker, e: Event, net: Network): (s: StepOutcome)
    ensures e.InstallEvent? ==> s.served.None?
    ensures e.FetchEvent? ==> s.worker == w && s.served.Some?
    ensures e.FetchEvent? && w.phase != Installed ==> s.served == Some(FetchOutcome(net(e.request), [e.request]))
    ensures e.FetchEvent? && w.phase == Installed ==> s.served == Some(HandleFetch(w.storage, e.request, net))
    ensures e.InstallEvent? && w.phase != Uninstalled ==> s.worker == w
    ensures e.InstallEvent? && w.phase == Uninstalled ==>
      && s.worker.storage == HandleInstall(w.storage, net).storage
      && s.worker.phase != Uninstalled
      && (s.worker.phase == Installed <==> AllStorable(URLS_TO_CACHE, net))
  {
    match e
    case InstallEvent =>
      if w.phase == Uninstalled then
        var r := HandleInstall(w.storage, net);
        StepOutcome(Worker(if r.succeeded then Installed else InstallFailed, r.storage), None)
      else StepOutcome(w, None)
    case FetchEvent(req) =>
      if w.phase == Installed then StepOutcome(w, Some(HandleFetch(w.storage, req, net)))
      else StepOutcome(w, Some(FetchOutcome(net(req), [req])))
  }

  /** The worker after a run of events, oldest first. */
  function Run(w: Worker, events: seq<Event>, net: Network): Worker
    decreases |events|
  {
    if events == [] then w else Run(Step(w, events[0], net).worker, events[1..], net)
  }

  /** Any run of fetch events leaves the worker, and so every cache, exactly as it was. */
  lemma {:induction false} FetchesNeverWrite(w: Worker, events: seq<Event>, net: Network)
    requires forall i :: 0 <= i < |events| ==> events[i].FetchEvent?
    ensures Run(w, events, net) == w
    decreases |events|
  {
    if events != [] {
      FetchesNeverWrite(w, events[1..], net);
    }
  }

  /**
   * After a successful install a manifest asset is answered from the caches
   * with no network request, whatever the network does by then (`later`),
   * and when no other cache holds that URL the answer is exactly the response
   * stored at install time.
   */
  lemma ManifestServedFromCache(storage: Storage, url: Url, net: Network, later: Network)
    requires url in URLS_TO_CACHE && AllStorable(URLS_TO_CACHE, net)
    ensures var served := HandleFetch(HandleInstall(storage, net).storage, Get(url), later);
      && served.network == []
      && ((forall c :: c in storage && c.name != CACHE_NAME ==> url !in c.entries)
            ==> served.result == net(Get(url)))
  {
    ManifestHasNoDuplicates();
    var r := HandleInstall(storage, net);
    var k := NameIndex(r.storage, CACHE_NAME);
    assert CacheMatch(r.storage[k], Get(url)).Some?;
    if forall c :: c in storage && c.name != CACHE_NAME ==> url !in c.entries {
      var m := Match(r.storage, Get(url));
      var i :| 0 <= i < |r.storage| && CacheMatch(r.storage[i], Get(url)) == m
                 && forall j :: 0 <= j < i ==> CacheMatch(r.storage[j], Get(url)).None?;
      assert i == k;
      assert Storable(net(Get(url)));
    }
  }

  /**
   * The same, through the dispatcher: an install event, then a fetch event
   * for a manifest asset, possibly while the network is down.
   */
  lemma InstalledManifestIsServedFromCache(w: Worker, url: Url, net: Network, later: Network)
    requires w.phase == Uninstalled && url in URLS_TO_CACHE && AllStorable(URLS_TO_CACHE, net)
    ensures var after := Step(w, InstallEvent, net).worker;
      var served := Step(after, FetchEvent(Get(url)), later).served.value;
      && after.phase == Installed
      && served.network == []
      && ((forall c :: c in w.storage && c.name != CACHE_NAME ==> url !in c.entries)
            ==> served.result == net(Get(url)))
  {
    ManifestServedFromCache(w.storage, url, net, later);
  }

  /**
   * A rejected install leaves every cache's entries as they were (the cache
   * `sok-beauty-v1` may now exist, empty), and the worker never answers a
   * request: each one goes to the network.
   */
  lemma FailedInstallNeverServesFromCache(w: Worker, req: Request, net: Network)
    requires w.phase == Uninstalled && !AllStorable(URLS_TO_CACHE, net)
    ensures var after := Step(w, InstallEvent, net).worker;
      && after.phase == InstallFailed
      && (forall i :: 0 <= i < |w.storage| ==> after.storage[i].entries == w.storage[i].entries)
      && (forall i :: |w.storage| <= i < |after.storage| ==> after.storage[i] == Cache(CACHE_NAME, map[]))
      && Step(after, FetchEvent(req), net).served == Some(FetchOutcome(net(req), [req]))
  {
  }

  /** A URL outside every cache is fetched from the network once, unmodified, whatever the answer. */
  lemma UncachedGoesToNetwork(w: Worker, req: Request, net: Network)
    requires w.phase == Installed
    requires forall c :: c in w.storage ==> req.url !in c.entries
    ensures Step(w, FetchEvent(req), net).served == Some(FetchOutcome(net(req), [req]))
  {
  }

  /**
   * `caches.match` looks in every cache, so an entry left in an older-version
   * cache created earlier wins over the fresh copy installed under
   * `sok-beauty-v1`.
   */
  lemma OldVersionStoreShadowsNewInstall(stale: Response, net: Network)
    requires AllStorable(URLS_TO_CACHE, net)
    requires net(Get("/")) != Ok(stale)
    ensures var w := Worker(Uninstalled, [Cache("sok-beauty-v0", map["/" := stale])]);
      var after := Step(w, InstallEvent, net).worker;
      && after.phase == Installed
      && Step(after, FetchEvent(Get("/")), net).served == Some(FetchOutcome(Ok(stale), []))
  {
  }

  /**
   * Bumping the cache name between two installs gives two independent caches:
   * the second install leaves the first cache, and its entries, untouched.
   */
  lemma RenamedInstallKeepsOldCache(storage: Storage, oldName: string, newName: string,
                                    manifest: seq<Url>, net: Network)
    requires oldName != newName && NamesUnique(storage)
    ensures var first := Install(storage, oldName, manifest, net);
      var second := Install(first.storage, newName, manifest, net);
      && HasCache(second.storage, oldName)
      && second.storage[NameIndex(second.storage, oldName)] == first.storage[NameIndex(first.storage, oldName)]
  {
  }
}

=== FILE: sticky_nav.dfy ===
/**
 * The sticky navigation bar (js/main.js): on every scroll event the bar is
 * slid out of view while the page scrolls down past the first 100 pixels,
 * and slid back in otherwise.
 */
module StickyNav {

  /** Below this offset the bar is always shown. */
  const HIDE_THRESHOLD := 100

  /** The inline `transform` of `.navbar`: never written yet, `translateY(-100%)`, or `translateY(0)`. */
  datatype Transform = Untouched | Hidden | Shown

  /** The handler's closure state (`lastScrollTop`) together with what it last wrote to the bar. */
  datatype Nav = Nav(lastScrollTop: int, transform: Transform)

  /** The state when the page has loaded: `lastScrollTop = 0`, no transform written. */
  const Initial := Nav(0, Untouched)

  /** One scroll event. */
  function OnScroll(nav: Nav, scrollTop: int): (nav': Nav)
    ensures nav'.lastScrollTop == scrollTop
    ensures nav'.transform != Untouched
    ensures nav'.transform == Hidden <==> scrollTop > nav.lastScrollTop && scrollTop > HIDE_THRESHOLD
    ensures scrollTop <= HIDE_THRESHOLD ==> nav'.transform == Shown
  {
    var transform := if scrollTop > nav.lastScrollTop && scrollTop > HIDE_THRESHOLD then Hidden else Shown;
    Nav(scrollTop, transform)
  }

  /**
   * One scroll event as the handler reads it: the offset is
   * `window.pageYOffset || document.documentElement.scrollTop`, and an offset
   * of zero is falsy, so the document's own offset is used instead.
   */
  function OnScrollEvent(nav: Nav, pageYOffset: int, documentScrollTop: int): (nav': Nav)
    ensures pageYOffset != 0 ==> nav' == OnScroll(nav, pageYOffset)
    ensures pageYOffset == 0 ==> nav' == OnScroll(nav, documentScrollTop)
    ensures pageYOffset == 0 && documentScrollTop == 0 ==> nav' == Nav(0, Shown)
  {
    var scrollTop := if pageYOffset != 0 then pageYOffset else documentScrollTop;
    OnScroll(nav, scrollTop)
  }

  /** A run of scroll events, oldest first. */
  function Replay(nav: Nav, offsets: seq<int>): Nav
    decreases |offsets|
  {
    if offsets == [] then nav else Replay(OnScroll(nav, offsets[0]), offsets[1..])
  }

  /**
   * Only the last two offsets matter: after a non-empty run of events the
   * handler remembers the last offset, and the bar is hidden iff that offset
   * exceeds both the one before it (or the starting `lastScrollTop`) and the
   * threshold.
   */
  lemma {:induction false} ReplayDependsOnLastTwo(nav: Nav, offsets: seq<int>)
    requires |offsets| > 0
    ensures Replay(nav, offsets).lastScrollTop == offsets[|offsets| - 1]
    ensures Replay(nav, offsets).transform != Untouched
    ensures var before := if |offsets| == 1 then nav.lastScrollTop else offsets[|offsets| - 2];
      (Replay(nav, offsets).transform == Hidden)
      <==> offsets[|offsets| - 1] > before && offsets[|offsets| - 1] > HIDE_THRESHOLD
    decreases |offsets|
  {
    if |offsets| > 1 {
      ReplayDependsOnLastTwo(OnScroll(nav, offsets[0]), offsets[1..]);
    }
  }

  /**
   * From page load: the bar keeps its stylesheet position until the first
   * scroll event, and that first event hides it iff its offset exceeds the
   * threshold, since `lastScrollTop` starts at 0.
   */
  lemma {:induction false} FirstScrollFromLoad(offsets: seq<int>)
    ensures Replay(Initial, offsets).transform == Untouched <==> offsets == []
    ensures |offsets| == 1 ==> (Replay(Initial, offsets).transform == Hidden <==> offsets[0] > HIDE_THRESHOLD)
  {
    if offsets != [] {
      ReplayDependsOnLastTwo(Initial, offsets);
    }
  }

  /** Scrolling back up, or staying where it is, always brings the bar back. */
  lemma {:induction false} NotScrollingDownShows(nav: Nav, offsets: seq<int>)
    requires |offsets| > 1 && offsets[|offsets| - 1] <= offsets[|offsets| - 2]
    ensures Replay(nav, offsets).transform == Shown
  {
    ReplayDependsOnLastTwo(nav, offsets);
  }
}

=== FILE: wrappers.dfy ===
/** A plain optional value, shared by the modules of this model. */
module Wrappers {

  /** A value that may be absent: a DOM query that found nothing, a cache miss. */
  datatype Option<+T> = None | Some(value: T)
}
